=== FILE: README.md ===
# CN-Stock-Tax: classification and tax-estimate engine

CN-Stock-Tax is a small web tool. It takes a brokerage account's cash flows and
estimates, per market, the Chinese individual income tax still owed on
overseas trading gains and dividends. This project models the engine inside
the `get_tax_report` handler and its helper `get_market_info`, as pure
functions over immutable datatypes:

- **Normalize** (`normalizer.dfy`) turns one raw cash-flow record into a
  normalised one. It picks the timestamp, applies the defaults for missing
  attributes, upper-cases the flow label and parses the balance, reading an
  unparseable balance as 0.
- **Classify** (`markets.dfy`, `classifier.dfy`) does three things:
  - It picks the market bucket: the symbol suffix first, the currency second.
  - It signs the amount: outflow keywords first, then inflow keywords, then
    the `direction` field.
  - It runs the first-match-wins chain of substring tests. The chain gives
    the display kind, the tax category and the profit/loss flag.
- **Aggregate** (`aggregator.dfy`) always produces all five markets. For each
  market it keeps that market's records in input order and sums the
  profit/loss total. It then builds the tax report: trade gain, dividend
  gain, foreign tax paid, a 20% estimate with the foreign-tax credit floored
  at zero, and taxable income.
- `engine.dfy` composes the three stages.
- `scenarios.dfy` proves the keyword quirks and worked examples on
  concrete labels.
- `text.dfy` holds the string operations:
  - ASCII upper-casing;
  - `endswith`;
  - Python's `in` on strings, defined as "occurs at some position", with a
    left-to-right scan as an independent definition and a lemma proving the
    two agree.
- `records.dfy` holds the data model.

Python's `getattr` with a default is modelled by `Attr<T>`. An attribute can
be missing (`Absent`, so the default is used), present but `None` (`Null`),
or present with a value (`Has`).

### Where the code differs from what its names suggest

The model follows the code in each case.

- The variable `abs_amount` (app.py:72) holds `float(balance)` with no
  absolute value taken. The absolute value is taken only when the sign is applied
  (app.py:81-87).
  - The model keeps the parsed value as it is.
  - It proves that the amount's absolute value equals the balance's
    absolute value.
- A SELL label is non-negative only when it has no outflow keyword: "SELL
  FEE" is negative, because the outflow test (app.py:81) runs first.
  `Classifier.SellIsInflowWithoutOutflowKeyword` states the condition.
- The result is modelled as a record with one summary per market
  (`ResultByMarket`), not a dictionary. Every market is therefore always
  present.

## Model

| member | source | states |
|---|---|---|
| Markets.MarketOf | app.py:16-29 | no contract of its own; characterised by SuffixTakesPrecedence, CurrencyFallback and OtherIffUnrecognised below |
| Markets.SuffixTakesPrecedence | app.py:18-23 | a symbol whose upper-cased form ends in a recognised suffix gets that suffix's market, whatever the currency |
| Markets.CurrencyFallback | app.py:25-29 | with no symbol, or no recognised suffix, the market is the one the currency table gives, or OTHER |
| Markets.OtherIffUnrecognised | app.py:16-29 | a record lands in OTHER exactly when neither its suffix nor its currency is recognised (both directions) |
| Markets.SuffixCaseInsensitive | app.py:18-19 | symbols that differ only in letter case get the same market |
| Markets.CurrencyIsCaseSensitive | app.py:25-29 | currency codes are compared exactly: "usd" with no symbol and "XYZ" with an empty symbol give OTHER; "aapl.us" is US even with HKD |
| Text.Upper | app.py:19 | no contract of its own; `str.upper` on ASCII letters, characterised by UpperHasNoLowercase, UpperKeepsUppercase, UpperIdempotent and SameUpToCaseUpper |
| Text.EndsWith | app.py:20-23 | no contract of its own; `str.endswith`, used by MarketOf and characterised through SuffixTakesPrecedence and CurrencyFallback |
| Text.SameUpToCaseUpper | app.py:19 | two strings are equal up to letter case exactly when their upper-cased forms are equal |
| Scenarios.AaplIsUs | app.py:18-20 | the symbol AAPL.US is in the US market whatever its currency |
| Normalizer.PickTime | app.py:63 | no contract of its own: `business_time` when that attribute exists, else `transaction_time`, else None; its use is characterised by the time clauses of Normalizer.Normalize |
| Normalizer.ParseBalance | app.py:71-74 | a numeric balance is kept; a missing, None or unparseable one becomes 0 |
| Normalizer.Normalize | app.py:63-74 | the label has no lower-case letter and equals the raw label up to case, reading "UNKNOWN" when missing and "NONE" when None; the balance is parsed as above; the time is the record's own timestamp when it is non-empty and the query's start date otherwise; symbol, currency, direction and description pass through, with defaults '' / USD / "0" / the remark (then '') when missing; a None symbol, currency or description (or a None remark standing in for a missing description) stays None, and a None direction becomes the string "None" |
| Normalizer.NormalizeIgnoresLabelCase | app.py:69 | two raw records whose labels differ only in letter case normalise to the same record |
| Normalizer.NormalizeLabelIdempotent | app.py:69 | feeding the normalised label back in changes nothing |
| Classifier.SignedAmount | app.py:77-87 | the amount's absolute value always equals the balance's: only the sign is decided |
| Classifier.SignPrecedence | app.py:81-87 | outflow keywords beat inflow keywords; `direction` "1" decides only when neither list matches; for a non-zero balance the amount is negative exactly when the record is treated as an outflow |
| Classifier.BuyIsNeverInflow | app.py:78-82 | any label containing BUY gives an amount of at most 0, whatever the direction |
| Classifier.SellIsInflowWithoutOutflowKeyword | app.py:79-84 | a SELL label without an outflow keyword gives an amount of at least 0 |
| Classifier.Categorize | app.py:89-123 | a record is profit/loss exactly when its tax category is not `ignore`; an unmatched label is shown as itself and ignored |
| Classifier.FirstMatchWins | app.py:94-123 | in an ordered rule table, the first rule whose keywords match decides |
| Classifier.NoMatchFallsThrough | app.py:90-92 | when no rule matches, the raw label is shown, the category is `ignore` and the flag is off |
| Classifier.TableTailAgrees | app.py:94-123 | from any rule on, the table's first match equals the rest of the source's chain of tests |
| Text.Contains | app.py:81-123 | no contract of its own; Python's `k in s` as "occurs at some position", characterised by ScanIff |
| Text.ScanIff | app.py:94 | the substring test `k in s` holds exactly when a left-to-right scan finds `k` |
| Classifier.CategorizeFollowsRuleTable | app.py:94-123 | the source's chain equals the first match in the table BUY, SELL, DIVIDEND, INTEREST, FEE/COMMISSION, TAX/WITHHOLD, DEPOSIT, WITHDRAW, CONVERSION/EXCHANGE, for every label |
| Classifier.BuyBeatsSell | app.py:94-101 | a label holding both BUY and SELL is a trade cost shown as a buy |
| Classifier.Classify | app.py:125-136 | the classified record keeps the label, time, symbol, currency and description; its market is MarketOf's, its display, category and flag are Categorize's, its amount is SignedAmount's (so of the balance's magnitude), and its flag agrees with its category |
| Aggregator.EstimateTax | app.py:172-199 | no contract of its own; characterised by TaxEstimateBounds and CreditIsMonotone below |
| Aggregator.TaxEstimateBounds | app.py:175-199 | a trading loss adds nothing to taxable income; foreign tax is reported as the absolute value of the signed foreign-tax sum, whichever its sign; the estimate is never negative, is 0 exactly when the credit covers the 20% base, and otherwise is 20% of taxable income less the credit |
| Aggregator.CreditIsMonotone | app.py:178-192 | more foreign tax paid, as the absolute value of the signed foreign-tax sum of either sign, never raises the estimate |
| Aggregator.Summarize | app.py:156-200 | no contract of its own; characterised by SummarizeEmpty, SummaryPlDecomposes, IgnoredRecordKeepsSummary and TaxEstimateBounds |
| Aggregator.SummarizeEmpty | app.py:144-154 | a market with no records has the all-zero summary the source initialises |
| Aggregator.Aggregate | app.py:139-202 | no contract of its own; characterised by AggregateIsPerMarketSummary, PartitionIsComplete, FilterKeepsOrder and BatchesAddUp |
| Aggregator.AggregateIsPerMarketSummary | app.py:143-158 | each market's summary is the summary of that market's records; the empty-input short cut gives the same result |
| Aggregator.AggregateSingleMarket | app.py:157-158 | when every record belongs to one market, that market's summary is the summary of the whole input |
| Aggregator.EmptyMarketIsZero | app.py:143-158 | a market that no record belongs to has the all-zero summary, with or without other records |
| Aggregator.Filter | app.py:157 | no contract of its own; `df[df['market'] == mkt]`, characterised by FilterMarket, FilterCounts and FilterKeepsOrder |
| Aggregator.SumPl | app.py:161-162 | no contract of its own; the sum of the profit/loss-flagged amounts, characterised by PlIsSumOfCategories and PlSplitsAcrossMarkets |
| Aggregator.SumCategory | app.py:166-180 | no contract of its own; the sum of one tax category's amounts, characterised by SumCategoryAppend and PlIsSumOfCategories |
| Aggregator.FilterMarket | app.py:157 | every record in a market's list belongs to that market |
| Aggregator.FilterAppend | app.py:157-158 | the market filter distributes over concatenation of inputs |
| Aggregator.FilterCounts | app.py:157-158 | a record appears in its market's list as often as in the input, and in no other list |
| Aggregator.PartitionIsComplete | app.py:141-158 | the five market lists together hold exactly the input records, as a multiset |
| Aggregator.PartitionLengths | app.py:141-158 | the five list lengths add up to the input length |
| Aggregator.FilterKeepsOrder | app.py:157-158 | a market's list is the input at that market's positions, in ascending order |
| Aggregator.PlIsSumOfCategories | app.py:161-180 | when flags agree with categories, the profit/loss sum is the sum over the four taxed categories |
| Aggregator.FilterKeepsFlags | app.py:157-161 | restricting to one market keeps flags consistent with categories |
| Aggregator.SummaryPlDecomposes | app.py:161-180 | a summary's profit/loss total is trade gain plus dividend gain plus the signed foreign-tax sum |
| Aggregator.TotalPlDecomposes | app.py:161-180 | the same decomposition holds for every market of the aggregate |
| Aggregator.PlSplitsAcrossMarkets | app.py:141-162 | the five markets' profit/loss sums add up to the whole input's |
| Aggregator.IgnoredRecordKeepsSummary | app.py:118-123 | adding an ignored, non-profit/loss record to a market's list leaves its total and tax report unchanged |
| Aggregator.IgnoredRecordChangesNoFigure | app.py:118-123 | appending an ignored, non-profit/loss record changes no market's tax report or total, and only extends its own market's list |
| Aggregator.BatchesAddUp | app.py:156-176 | splitting the input into two batches: a market's list is the two batches' lists joined, and its profit/loss total, trade gain and dividend gain are the sums of the batches' figures |
| Aggregator.SumCategoryAppend | app.py:165-176 | a category sum over joined inputs is the sum of the parts' category sums |
| Engine.ClassifyAll | app.py:62-136 | one classified record per raw record, in order: record i carries raw record i's normalised label, time, symbol, currency and description, the market MarketOf gives, the category Categorize gives and the amount SignedAmount gives; flags are consistent and magnitudes kept |
| Engine.ComputeTaxReport | app.py:62-202 | no contract of its own; characterised by ReportPartitionsInput, ReportKeepsInputOrder and ReportInvariants |
| Engine.ReportPartitionsInput | app.py:141-158 | every raw record ends up in exactly one market's list |
| Engine.ReportKeepsInputOrder | app.py:157-158 | each market's list is the classified input restricted to that market, in input order |
| Engine.ReportInvariants | app.py:160-199 | in every market the estimate and foreign tax are non-negative, a trading loss is not deducted, the estimate is 0 exactly when the credit covers the base, and the profit/loss total decomposes by category |
| Scenarios.SellLabel | app.py:78-101 | "SELL" is an inflow and a trade income |
| Scenarios.BuyLabel | app.py:78-97 | "BUY" is an outflow and a trade cost |
| Scenarios.WithholdingWithoutTaxIsPositive | app.py:78-117 | "WITHHOLDING" matches the inflow keyword IN, so its amount is the balance's absolute value for every direction, "1" included, yet it is categorised as foreign tax |
| Scenarios.DividendTaxIsNegativeDividend | app.py:78-105 | "DIVIDEND TAX" has minus the balance's absolute value for every direction because of TAX, but is categorised as a dividend because DIVIDEND comes first in the chain |
| Scenarios.WithholdingTaxLabel | app.py:78-117 | "WITHHOLDING TAX" is an outflow categorised as foreign tax |
| Scenarios.DepositLabel | app.py:78-119 | "DEPOSIT" is an inflow, ignored for tax and not profit/loss |
| Scenarios.DepositWithoutSymbolIsUs | app.py:16-67 | a DEPOSIT with no symbol and the default currency USD lands in the US market |
| Scenarios.DepositChangesNoFigure | app.py:118-119 | a deposit of any amount leaves every market's tax report and total unchanged |
| Scenarios.LabelCaseVariants | app.py:69 | "buy", "Buy" and "BUY" normalise alike |
| Scenarios.ClassifyAaplFlow | app.py:62-136 | an upper-case flow on AAPL.US keeps its label, lands in US and is signed and categorised by its label |
| Scenarios.ClassifiedBuy | app.py:62-136 | the raw flow BUY 1000 on AAPL.US classifies as a US trade cost of -1000 |
| Scenarios.ClassifiedSell | app.py:62-136 | the raw flow SELL 1500 on AAPL.US classifies as a US trade income of 1500 |
| Scenarios.ClassifiedWithholdingTax | app.py:62-136 | the raw flow WITHHOLDING TAX 30 on AAPL.US classifies as US foreign tax of -30 |
| Scenarios.TwoTradesSummary | app.py:166-199 | a trade cost of -1000 and a trade income of 1500 summarise to trade gain 500, estimate 100, taxable income 500 |
| Scenarios.TwoTrades | app.py:172-199 | BUY 1000 and SELL 1500 in one market give trade gain 500 and estimate 100 |
| Scenarios.EstimateOneTradeAndPositiveCredit | app.py:178-199 | a foreign-tax sum of +30 is reported as 30 paid and lowers the estimate from 100 to 70 |
| Scenarios.ThreeTradesSummary | app.py:166-199 | with a foreign-tax flow of -30 or +30 added, foreign tax is 30 and the estimate 70 |
| Scenarios.ThreeTrades | app.py:172-199 | adding 30 withheld abroad, signed either way, gives foreign tax 30 and estimate 70 |
| Scenarios.ClassifiedWithholding | app.py:62-136 | the raw flow WITHHOLDING 30 on AAPL.US classifies as US foreign tax of +30 |
| Scenarios.AaplRoundTrip | app.py:62-199 | the three raw AAPL.US flows, end to end, give trade gain 500, foreign tax 30, estimate 70, taxable income 500 |
| Scenarios.PositiveWithholdingIsCredited | app.py:62-199 | with a lone WITHHOLDING 30 (signed positive) instead, the report still credits 30 and estimates 70 |

## Left out

- The Flask application, routes, template rendering and JSON responses
  (app.py:1-6, 32-44, 204-208) are HTTP plumbing.
- Date-range parsing and the end-of-day adjustment (app.py:46-50) are left
  out. The query's start date is a plain string parameter of `Normalize`.
- The brokerage client call and its credentials (app.py:9-13, 52-57) are a
  network client and a foreign library. The model takes the returned cash
  flows as a sequence argument.
- The `float()` conversion is left out. A balance is either a number or
  `Unparseable`, and a failure reads as 0.
- Binary floating point and `round(x, 2)` (app.py:133, 162, 195-199) are left
  out. Amounts are exact `real` numbers, the rate is exactly 0.20, and no
  figure is rounded.
- pandas DataFrame mechanics (app.py:139, 156-180) are replaced by filter and
  sum over a sequence. They give the same results on exact numbers.
- Python's `str.upper` is modelled on ASCII letters only. Non-ASCII case
  mappings are not modelled.
- `str()` of a timestamp or `direction` object is modelled as the string
  itself. The direction is modelled as the string its `str()` gives.
- The Chinese display strings are modelled as an enumeration of display
  kinds plus a raw-label case.
- Aggregator.TaxEstimateBounds does not consider NaN or infinite amounts,
  because amounts are real numbers.

=== FILE: aggregator.dfy ===
/** The aggregator: partitions the classified records by market, keeps each
    market's records in input order, and computes per market the
    profit/loss total and the estimated Chinese individual income tax. */
module Aggregator {
  import opened Records

  /** The flat 20% rate applied to both net trading gains and dividend/interest. */
  function AtTaxRate(x: real): real {
    x * 0.20
  }

  /** The records of market `m`, in input order. */
  function Filter(rs: seq<ClassifiedRecord>, m: Market): seq<ClassifiedRecord> {
    if |rs| == 0 then []
    else
      var last := rs[|rs| - 1];
      Filter(rs[..|rs| - 1], m) + (if last.market == m then [last] else [])
  }

  /** The input positions of market `m`'s records, ascending. */
  function Positions(rs: seq<ClassifiedRecord>, m: Market): seq<nat> {
    if |rs| == 0 then []
    else Positions(rs[..|rs| - 1], m) + (if rs[|rs| - 1].market == m then [|rs| - 1] else [])
  }

  /** Sum of the amounts of the records in tax category `c`. */
  function SumCategory(rs: seq<ClassifiedRecord>, c: TaxCategory): real {
    if |rs| == 0 then 0.0
    else
      var last := rs[|rs| - 1];
      SumCategory(rs[..|rs| - 1], c) + (if last.taxCategory == c then last.amount else 0.0)
  }

  /** Sum of the amounts of the records flagged as profit/loss. */
  function SumPl(rs: seq<ClassifiedRecord>): real {
    if |rs| == 0 then 0.0
    else
      var last := rs[|rs| - 1];
      SumPl(rs[..|rs| - 1]) + (if last.isPl then last.amount else 0.0)
  }

  /** The estimated domestic tax before the foreign credit. */
  function ChinaTaxBase(tradeGain: real, dividendGain: real): real {
    AtTaxRate(Max(0.0, tradeGain)) + AtTaxRate(dividendGain)
  }

  /** The tax report from the three category sums; `foreignTaxSum` is the
      signed sum of the foreign-tax amounts. */
  function EstimateTax(tradeGain: real, dividendGain: real, foreignTaxSum: real): TaxReport {
    var taxableTrade := Max(0.0, tradeGain);
    var taxableDividend := dividendGain;
    var foreignTax := Abs(foreignTaxSum);
    var base := AtTaxRate(taxableTrade) + AtTaxRate(taxableDividend);
    TaxReport(
      tradeGain := tradeGain,
      dividendGain := dividendGain,
      foreignTax := foreignTax,
      estChinaTax := Max(0.0, base - foreignTax),
      taxableIncome := taxableTrade + taxableDividend)
  }

  /** The floors and the credit cap of the tax estimate. */
  lemma TaxEstimateBounds(tradeGain: real, dividendGain: real, foreignTaxSum: real)
    ensures var t := EstimateTax(tradeGain, dividendGain, foreignTaxSum);
      && t.tradeGain == tradeGain && t.dividendGain == dividendGain
      // the paid foreign tax is reported as a non-negative figure
      && t.foreignTax == Abs(foreignTaxSum)
      // the estimate is never negative (no refund)
      && t.estChinaTax >= 0.0
      // a net trading loss adds nothing to the taxable income
      && (tradeGain <= 0.0 ==> t.taxableIncome == dividendGain)
      && (tradeGain >= 0.0 ==> t.taxableIncome == tradeGain + dividendGain)
      // zero exactly when the credit covers the base; otherwise base minus credit
      && (t.estChinaTax == 0.0 <==> t.foreignTax >= ChinaTaxBase(tradeGain, dividendGain))
      && (t.estChinaTax > 0.0 ==> t.estChinaTax + t.foreignTax == AtTaxRate(t.taxableIncome))
  {
  }

  /** More foreign tax paid never raises the estimated domestic tax. */
  lemma CreditIsMonotone(tradeGain: real, dividendGain: real, sum1: real, sum2: real)
    requires Abs(sum1) <= Abs(sum2)
    ensures EstimateTax(tradeGain, dividendGain, sum2).estChinaTax
            <= EstimateTax(tradeGain, dividendGain, sum1).estChinaTax
  {
  }

  /** The summary of one market's records. */
  function Summarize(rs: seq<ClassifiedRecord>): MarketSummary {
    MarketSummary(
      records := rs,
      totalPl := SumPl(rs),
      taxReport := EstimateTax(
        SumCategory(rs, TradeIncome) + SumCategory(rs, TradeCost),
        SumCategory(rs, Dividend),
        SumCategory(rs, ForeignTax)))
  }

  /** The per-market result; an empty input short-cuts to empty summaries,
      as the source does. */
  function Aggregate(rs: seq<ClassifiedRecord>): ResultByMarket {
    if |rs| == 0 then
      ResultByMarket(EmptySummary, EmptySummary, EmptySummary, EmptySummary, EmptySummary)
    else
      ResultByMarket(
        Summarize(Filter(rs, US)),
        Summarize(Filter(rs, HK)),
        Summarize(Filter(rs, CN)),
        Summarize(Filter(rs, SG)),
        Summarize(Filter(rs, OTHER)))
  }

  lemma EmptyTotalPl(e: seq<ClassifiedRecord>)
    requires |e| == 0
    ensures Summarize(e).totalPl == 0.0
  {
  }

  lemma EmptyTaxReport(e: seq<ClassifiedRecord>)
    requires |e| == 0
    ensures Summarize(e).taxReport == ZeroReport
  {
  }

  /** An empty market list has the all-zero summary. */
  lemma SummarizeEmpty(e: seq<ClassifiedRecord>)
    requires |e| == 0
    ensures Summarize(e) == EmptySummary
  {
    EmptyTotalPl(e);
    EmptyTaxReport(e);
  }

  /** Every market's summary is the summary of that market's records; the
      source's empty-input short cut gives the same result. */
  lemma AggregateIsPerMarketSummary(rs: seq<ClassifiedRecord>, m: Market)
    ensures Aggregate(rs).Get(m) == Summarize(Filter(rs, m))
  {
    if |rs| == 0 {
      SummarizeEmpty(Filter(rs, m));
    }
  }

  /** Every record in a market's list belongs to that market. */
  lemma {:induction false} FilterMarket(rs: seq<ClassifiedRecord>, m: Market)
    ensures forall r :: r in Filter(rs, m) ==> r.market == m
  {
    if |rs| > 0 {
      FilterMarket(rs[..|rs| - 1], m);
    }
  }

  // ---------------------------------------------------------------------
  // Partition and order

  /** Filtering splits over concatenation: a record earlier in the input is
      earlier in its market's list. */
  lemma {:induction false} FilterAppend(a: seq<ClassifiedRecord>, b: seq<ClassifiedRecord>, m: Market)
    ensures Filter(a + b, m) == Filter(a, m) + Filter(b, m)
    decreases |b|
  {
    if |b| == 0 {
      assert a + b == a;
    } else {
      var b' := b[..|b| - 1];
      assert (a + b)[..|a + b| - 1] == a + b';
      FilterAppend(a, b', m);
    }
  }

  /** Each record appears in its own market's list exactly as often as in
      the input, and in no other market's list. */
  lemma {:induction false} FilterCounts(rs: seq<ClassifiedRecord>, m: Market)
    ensures forall r :: multiset(Filter(rs, m))[r] == if r.market == m then multiset(rs)[r] else 0
  {
    if |rs| > 0 {
      var init := rs[..|rs| - 1];
      FilterCounts(init, m);
      assert rs == init + [rs[|rs| - 1]];
    }
  }

  /** The five market lists together hold exactly the input records. */
  lemma PartitionIsComplete(rs: seq<ClassifiedRecord>)
    ensures multiset(rs) == multiset(Filter(rs, US)) + multiset(Filter(rs, HK)) + multiset(Filter(rs, CN))
                            + multiset(Filter(rs, SG)) + multiset(Filter(rs, OTHER))
  {
    FilterCounts(rs, US);
    FilterCounts(rs, HK);
    FilterCounts(rs, CN);
    FilterCounts(rs, SG);
    FilterCounts(rs, OTHER);
    var total := multiset(Filter(rs, US)) + multiset(Filter(rs, HK)) + multiset(Filter(rs, CN))
                 + multiset(Filter(rs, SG)) + multiset(Filter(rs, OTHER));
    forall r
      ensures multiset(rs)[r] == total[r]
    {
      match r.market
      case US =>
      case HK =>
      case CN =>
      case SG =>
      case OTHER =>
    }
  }

  /** Every input record lands in exactly one market list, so the list
      lengths add up to the input length. */
  lemma {:induction false} PartitionLengths(rs: seq<ClassifiedRecord>)
    ensures |rs| == |Filter(rs, US)| + |Filter(rs, HK)| + |Filter(rs, CN)| + |Filter(rs, SG)| + |Filter(rs, OTHER)|
  {
    if |rs| > 0 {
      PartitionLengths(rs[..|rs| - 1]);
    }
  }

  /** A market's list is the input restricted to that market's positions,
      taken in ascending order: nothing reordered, dropped or duplicated. */
  lemma {:induction false} FilterKeepsOrder(rs: seq<ClassifiedRecord>, m: Market)
    ensures |Positions(rs, m)| == |Filter(rs, m)|
    ensures forall j :: 0 <= j < |Positions(rs, m)| ==>
              Positions(rs, m)[j] < |rs| && Filter(rs, m)[j] == rs[Positions(rs, m)[j]]
    ensures forall j, k :: 0 <= j < k < |Positions(rs, m)| ==> Positions(rs, m)[j] < Positions(rs, m)[k]
    ensures forall i :: 0 <= i < |rs| ==> (i in Positions(rs, m) <==> rs[i].market == m)
  {
    if |rs| > 0 {
      var init := rs[..|rs| - 1];
      FilterKeepsOrder(init, m);
    }
  }

  // ---------------------------------------------------------------------
  // Sums

  lemma {:induction false} SumCategoryAppend(a: seq<ClassifiedRecord>, b: seq<ClassifiedRecord>, c: TaxCategory)
    ensures SumCategory(a + b, c) == SumCategory(a, c) + SumCategory(b, c)
    decreases |b|
  {
    if |b| == 0 {
      assert a + b == a;
    } else {
      var b' := b[..|b| - 1];
      assert (a + b)[..|a + b| - 1] == a + b';
      SumCategoryAppend(a, b', c);
    }
  }

  lemma {:induction false} SumPlAppend(a: seq<ClassifiedRecord>, b: seq<ClassifiedRecord>)
    ensures SumPl(a + b) == SumPl(a) + SumPl(b)
    decreases |b|
  {
    if |b| == 0 {
      assert a + b == a;
    } else {
      var b' := b[..|b| - 1];
      assert (a + b)[..|a + b| - 1] == a + b';
      SumPlAppend(a, b');
    }
  }

  /** Every record is flagged profit/loss exactly when its tax category is
      not `ignore`, as the classifier guarantees. */
  ghost predicate FlagsConsistent(rs: seq<ClassifiedRecord>) {
    forall i :: 0 <= i < |rs| ==> (rs[i].isPl <==> rs[i].taxCategory != Ignore)
  }

  /** The profit/loss total is the sum of the four taxed categories. */
  lemma {:induction false} PlIsSumOfCategories(rs: seq<ClassifiedRecord>)
    requires FlagsConsistent(rs)
    ensures SumPl(rs) == SumCategory(rs, TradeIncome) + SumCategory(rs, TradeCost)
                         + SumCategory(rs, Dividend) + SumCategory(rs, ForeignTax)
  {
    if |rs| > 0 {
      PlIsSumOfCategories(rs[..|rs| - 1]);
    }
  }

  lemma {:induction false} FilterKeepsFlags(rs: seq<ClassifiedRecord>, m: Market)
    requires FlagsConsistent(rs)
    ensures FlagsConsistent(Filter(rs, m))
  {
    if |rs| > 0 {
      FilterKeepsFlags(rs[..|rs| - 1], m);
    }
  }

  lemma SummaryPlDecomposes(f: seq<ClassifiedRecord>)
    requires FlagsConsistent(f)
    ensures Summarize(f).totalPl ==
            Summarize(f).taxReport.tradeGain + Summarize(f).taxReport.dividendGain + SumCategory(f, ForeignTax)
  {
    PlIsSumOfCategories(f);
  }

  /** A market's profit/loss total equals its trade gain plus its dividend
      gain plus the signed sum of its foreign-tax amounts. */
  lemma TotalPlDecomposes(rs: seq<ClassifiedRecord>, m: Market)
    requires FlagsConsistent(rs)
    ensures var s := Aggregate(rs).Get(m);
            s.totalPl == s.taxReport.tradeGain + s.taxReport.dividendGain + SumCategory(s.records, ForeignTax)
  {
    AggregateIsPerMarketSummary(rs, m);
    FilterKeepsFlags(rs, m);
    SummaryPlDecomposes(Filter(rs, m));
  }

  lemma SumPlFilterStep(rs: seq<ClassifiedRecord>, m: Market)
    requires |rs| > 0
    ensures var last := rs[|rs| - 1];
            SumPl(Filter(rs, m)) ==
            SumPl(Filter(rs[..|rs| - 1], m)) + (if last.market == m && last.isPl then last.amount else 0.0)
  {
    var last := rs[|rs| - 1];
    SumPlSingleton(last);
    var tail := if last.market == m then [last] else [];
    SumPlAppend(Filter(rs[..|rs| - 1], m), tail);
  }

  /** The market totals add up to the profit/loss total of the whole input. */
  lemma {:induction false} PlSplitsAcrossMarkets(rs: seq<ClassifiedRecord>)
    ensures SumPl(rs) == SumPl(Filter(rs, US)) + SumPl(Filter(rs, HK)) + SumPl(Filter(rs, CN))
                         + SumPl(Filter(rs, SG)) + SumPl(Filter(rs, OTHER))
  {
    if |rs| > 0 {
      PlSplitsAcrossMarkets(rs[..|rs| - 1]);
      SumPlFilterStep(rs, US);
      SumPlFilterStep(rs, HK);
      SumPlFilterStep(rs, CN);
      SumPlFilterStep(rs, SG);
      SumPlFilterStep(rs, OTHER);
    }
  }

  lemma SumPlSingleton(r: ClassifiedRecord)
    ensures SumPl([r]) == if r.isPl then r.amount else 0.0
  {
    assert [r][..0] == [];
  }

  lemma SumCategoryPush(rs: seq<ClassifiedRecord>, r: ClassifiedRecord, c: TaxCategory)
    ensures SumCategory(rs + [r], c) == SumCategory(rs, c) + (if r.taxCategory == c then r.amount else 0.0)
  {
    assert (rs + [r])[..|rs|] == rs;
  }

  lemma SumPlPush(rs: seq<ClassifiedRecord>, r: ClassifiedRecord)
    ensures SumPl(rs + [r]) == SumPl(rs) + (if r.isPl then r.amount else 0.0)
  {
    assert (rs + [r])[..|rs|] == rs;
  }

  lemma FilterPush(rs: seq<ClassifiedRecord>, r: ClassifiedRecord, m: Market)
    ensures Filter(rs + [r], m) == Filter(rs, m) + (if r.market == m then [r] else [])
  {
    assert (rs + [r])[..|rs|] == rs;
  }

  /** Appending an ignored, non-profit/loss record to a market's list leaves
      its totals and tax report as they were. */
  lemma IgnoredRecordKeepsSummary(f: seq<ClassifiedRecord>, r: ClassifiedRecord)
    requires r.taxCategory == Ignore && !r.isPl
    ensures Summarize(f + [r]).taxReport == Summarize(f).taxReport
    ensures Summarize(f + [r]).totalPl == Summarize(f).totalPl
  {
    SumCategoryPush(f, r, TradeIncome);
    SumCategoryPush(f, r, TradeCost);
    SumCategoryPush(f, r, Dividend);
    SumCategoryPush(f, r, ForeignTax);
    SumPlPush(f, r);
  }

  /** A record outside the taxed categories and not flagged profit/loss
      (a deposit, a withdrawal, a conversion, an unrecognised label) changes
      no figure of any market: only its market's record list grows. */
  lemma IgnoredRecordChangesNoFigure(rs: seq<ClassifiedRecord>, r: ClassifiedRecord, m: Market)
    requires r.taxCategory == Ignore && !r.isPl
    ensures Aggregate(rs + [r]).Get(m).taxReport == Aggregate(rs).Get(m).taxReport
    ensures Aggregate(rs + [r]).Get(m).totalPl == Aggregate(rs).Get(m).totalPl
    ensures Aggregate(rs + [r]).Get(m).records
            == Aggregate(rs).Get(m).records + (if r.market == m then [r] else [])
  {
    AggregateIsPerMarketSummary(rs + [r], m);
    AggregateIsPerMarketSummary(rs, m);
    FilterPush(rs, r, m);
    var f := Filter(rs, m);
    if r.market == m {
      IgnoredRecordKeepsSummary(f, r);
    } else {
      assert f + [] == f;
    }
  }

  /** The additive figures of a market are the same whether the flows are
      reported in one batch or two: its record list is the two lists joined,
      and its profit/loss total, trade gain and dividend gain are the sums
      of the two batches' figures. */
  lemma BatchesAddUp(a: seq<ClassifiedRecord>, b: seq<ClassifiedRecord>, m: Market)
    ensures var s := Aggregate(a + b).Get(m);
            var sa := Aggregate(a).Get(m);
            var sb := Aggregate(b).Get(m);
            && s.records == sa.records + sb.records
            && s.totalPl == sa.totalPl + sb.totalPl
            && s.taxReport.tradeGain == sa.taxReport.tradeGain + sb.taxReport.tradeGain
            && s.taxReport.dividendGain == sa.taxReport.dividendGain + sb.taxReport.dividendGain
  {
    AggregateIsPerMarketSummary(a + b, m);
    AggregateIsPerMarketSummary(a, m);
    AggregateIsPerMarketSummary(b, m);
    FilterAppend(a, b, m);
    var fa, fb := Filter(a, m), Filter(b, m);
    SumCategoryAppend(fa, fb, TradeIncome);
    SumCategoryAppend(fa, fb, TradeCost);
    SumCategoryAppend(fa, fb, Dividend);
    SumPlAppend(fa, fb);
  }

  /** A market whose records all lie in market `m` filter to themselves. */
  lemma {:induction false} FilterSingleMarket(rs: seq<ClassifiedRecord>, m: Market)
    requires forall i :: 0 <= i < |rs| ==> rs[i].market == m
    ensures Filter(rs, m) == rs
  {
    if |rs| > 0 {
      FilterSingleMarket(rs[..|rs| - 1], m);
      assert rs[..|rs| - 1] + [rs[|rs| - 1]] == rs;
    }
  }

  /** When every record belongs to market `m`, that market's summary is
      the summary of the whole input. */
  lemma AggregateSingleMarket(rs: seq<ClassifiedRecord>, m: Market)
    requires forall i :: 0 <= i < |rs| ==> rs[i].market == m
    ensures Aggregate(rs).Get(m) == Summarize(rs)
  {
    FilterSingleMarket(rs, m);
    AggregateIsPerMarketSummary(rs, m);
  }

  /** The empty-input short cut gives what the general computation would:
      a market with no records has an all-zero summary. */
  lemma EmptyMarketIsZero(rs: seq<ClassifiedRecord>, m: Market)
    requires forall r :: r in rs ==> r.market != m
    ensures Aggregate(rs).Get(m) == EmptySummary
  {
    FilterCounts(rs, m);
    FilterMarket(rs, m);
    var f := Filter(rs, m);
    AggregateIsPerMarketSummary(rs, m);
    SummarizeEmpty(f);
  }
}

=== FILE: classifier.dfy ===
/** The classifier: the sign of a flow's amount, its display kind, tax
    category and profit/loss flag, all decided by substring tests on the
    upper-cased flow label, plus the market bucket. */
module Classifier {
  import opened Text
  import opened Records
  import opened Markets

  /** A label containing any of these is an outflow (negative amount). */
  const OutflowKeywords: seq<string> := ["BUY", "WITHDRAW", "OUT", "FEE", "TAX", "COMMISSION", "DEBIT"]

  /** Consulted only when no outflow keyword matches: an inflow. */
  const InflowKeywords: seq<string> := ["SELL", "DEPOSIT", "IN", "DIVIDEND", "INTEREST", "CREDIT"]

  /** The signed amount of a flow: keywords decide the sign, outflow first,
      and the `direction` field ("1" = outflow) decides only when no keyword
      matches. The magnitude is always that of the balance. */
  function SignedAmount(flowName: string, direction: string, balance: real): (amount: real)
    ensures Abs(amount) == Abs(balance)
  {
    if ContainsAny(flowName, OutflowKeywords) then -Abs(balance)
    else if ContainsAny(flowName, InflowKeywords) then Abs(balance)
    else if direction == "1" then -Abs(balance)
    else Abs(balance)
  }

  /** The label is treated as an outflow: by keyword, or by `direction`
      when no keyword of either list matches. */
  predicate TreatedAsOutflow(flowName: string, direction: string) {
    ContainsAny(flowName, OutflowKeywords) ||
    (!ContainsAny(flowName, InflowKeywords) && direction == "1")
  }

  /** For a non-zero balance the amount is negative exactly when the label is
      treated as an outflow, and positive exactly when it is not. */
  lemma SignPrecedence(flowName: string, direction: string, balance: real)
    ensures TreatedAsOutflow(flowName, direction) ==> SignedAmount(flowName, direction, balance) <= 0.0
    ensures !TreatedAsOutflow(flowName, direction) ==> SignedAmount(flowName, direction, balance) >= 0.0
    ensures balance != 0.0 ==>
              (SignedAmount(flowName, direction, balance) < 0.0 <==> TreatedAsOutflow(flowName, direction))
  {
  }

  /** Any label containing BUY yields a non-positive amount, whatever else
      the label or the direction field say. */
  lemma BuyIsNeverInflow(flowName: string, direction: string, balance: real)
    requires Contains(flowName, "BUY")
    ensures SignedAmount(flowName, direction, balance) <= 0.0
  {
    assert "BUY" in OutflowKeywords;
  }

  /** A SELL label yields a non-negative amount unless it also holds an
      outflow keyword (which wins). */
  lemma SellIsInflowWithoutOutflowKeyword(flowName: string, direction: string, balance: real)
    requires Contains(flowName, "SELL") && !ContainsAny(flowName, OutflowKeywords)
    ensures SignedAmount(flowName, direction, balance) >= 0.0
  {
    assert "SELL" in InflowKeywords;
  }

  /** The category chain as the source writes it: the first test that
      matches decides, in the order BUY, SELL, DIVIDEND, INTEREST,
      FEE/COMMISSION, TAX/WITHHOLD, DEPOSIT, WITHDRAW, CONVERSION/EXCHANGE. */
  function Categorize(flowName: string): (c: Category)
    ensures c.isPl <==> c.taxCategory != Ignore
    ensures c.display.RawLabel? ==> c.display.name == flowName && c.taxCategory == Ignore
  {
    if Contains(flowName, "BUY") then Category(Buy, TradeCost, true)
    else if Contains(flowName, "SELL") then Category(Sell, TradeIncome, true)
    else if Contains(flowName, "DIVIDEND") then Category(CashDividend, Dividend, true)
    else if Contains(flowName, "INTEREST") then Category(CashInterest, Dividend, true)
    else if Contains(flowName, "FEE") || Contains(flowName, "COMMISSION") then Category(TradingFee, TradeCost, true)
    else if Contains(flowName, "TAX") || Contains(flowName, "WITHHOLD") then Category(WithholdingTax, ForeignTax, true)
    else if Contains(flowName, "DEPOSIT") then Category(Deposit, Ignore, false)
    else if Contains(flowName, "WITHDRAW") then Category(Withdrawal, Ignore, false)
    else if Contains(flowName, "CONVERSION") || Contains(flowName, "EXCHANGE") then Category(CurrencyConversion, Ignore, false)
    else Category(RawLabel(flowName), Ignore, false)
  }

  /** One rule of the ordered category table. */
  datatype Rule = Rule(keywords: seq<string>, category: Category)

  /** The category chain as an explicit, ordered table of rules. */
  const RuleTable: seq<Rule> := [
    Rule(["BUY"], Category(Buy, TradeCost, true)),
    Rule(["SELL"], Category(Sell, TradeIncome, true)),
    Rule(["DIVIDEND"], Category(CashDividend, Dividend, true)),
    Rule(["INTEREST"], Category(CashInterest, Dividend, true)),
    Rule(["FEE", "COMMISSION"], Category(TradingFee, TradeCost, true)),
    Rule(["TAX", "WITHHOLD"], Category(WithholdingTax, ForeignTax, true)),
    Rule(["DEPOSIT"], Category(Deposit, Ignore, false)),
    Rule(["WITHDRAW"], Category(Withdrawal, Ignore, false)),
    Rule(["CONVERSION", "EXCHANGE"], Category(CurrencyConversion, Ignore, false))
  ]

  /** The category of the first rule, from position `i` on, whose keywords
      match; the raw label when none does. */
  function FirstMatch(rules: seq<Rule>, flowName: string, i: nat): Category
    decreases |rules| - i
  {
    if i >= |rules| then Category(RawLabel(flowName), Ignore, false)
    else if ContainsAny(flowName, rules[i].keywords) then rules[i].category
    else FirstMatch(rules, flowName, i + 1)
  }

  /** First match wins: the rule at position `k` decides when it matches and
      no earlier rule (from `i` on) does. */
  lemma {:induction false} FirstMatchWins(rules: seq<Rule>, flowName: string, i: nat, k: nat)
    requires i <= k < |rules|
    requires ContainsAny(flowName, rules[k].keywords)
    requires forall j :: i <= j < k ==> !ContainsAny(flowName, rules[j].keywords)
    ensures FirstMatch(rules, flowName, i) == rules[k].category
    decreases k - i
  {
    if i < k {
      FirstMatchWins(rules, flowName, i + 1, k);
    }
  }

  /** When no rule from `i` on matches, the raw label is shown and ignored. */
  lemma {:induction false} NoMatchFallsThrough(rules: seq<Rule>, flowName: string, i: nat)
    requires forall j :: i <= j < |rules| ==> !ContainsAny(flowName, rules[j].keywords)
    ensures FirstMatch(rules, flowName, i) == Category(RawLabel(flowName), Ignore, false)
    decreases |rules| - i
  {
    if i < |rules| {
      NoMatchFallsThrough(rules, flowName, i + 1);
    }
  }

  lemma ContainsAnyPair(s: string, a: string, b: string)
    ensures ContainsAny(s, [a, b]) <==> Contains(s, a) || Contains(s, b)
  {
    assert a in [a, b] && b in [a, b];
  }

  lemma ContainsAnyOne(s: string, a: string)
    ensures ContainsAny(s, [a]) <==> Contains(s, a)
  {
    assert a in [a];
  }

  /** Rule `i` of the table matches exactly when the `i`-th test of the
      chain succeeds. */
  lemma RuleTestAgrees(f: string, i: nat)
    requires i < |RuleTable|
    ensures ContainsAny(f, RuleTable[i].keywords) <==>
      match i
      case 0 => Contains(f, "BUY")
      case 1 => Contains(f, "SELL")
      case 2 => Contains(f, "DIVIDEND")
      case 3 => Contains(f, "INTEREST")
      case 4 => Contains(f, "FEE") || Contains(f, "COMMISSION")
      case 5 => Contains(f, "TAX") || Contains(f, "WITHHOLD")
      case 6 => Contains(f, "DEPOSIT")
      case 7 => Contains(f, "WITHDRAW")
      case _ => Contains(f, "CONVERSION") || Contains(f, "EXCHANGE")
  {
    match i
    case 0 => ContainsAnyOne(f, "BUY");
    case 1 => ContainsAnyOne(f, "SELL");
    case 2 => ContainsAnyOne(f, "DIVIDEND");
    case 3 => ContainsAnyOne(f, "INTEREST");
    case 4 => ContainsAnyPair(f, "FEE", "COMMISSION");
    case 5 => ContainsAnyPair(f, "TAX", "WITHHOLD");
    case 6 => ContainsAnyOne(f, "DEPOSIT");
    case 7 => ContainsAnyOne(f, "WITHDRAW");
    case _ => ContainsAnyPair(f, "CONVERSION", "EXCHANGE");
  }

  /** From rule `i` on, the table agrees with the tail of the chain. */
  lemma {:induction false} TableTailAgrees(f: string, i: nat)
    requires i <= |RuleTable|
    ensures FirstMatch(RuleTable, f, i) ==
      if i <= 0 && Contains(f, "BUY") then Category(Buy, TradeCost, true)
      else if i <= 1 && Contains(f, "SELL") then Category(Sell, TradeIncome, true)
      else if i <= 2 && Contains(f, "DIVIDEND") then Category(CashDividend, Dividend, true)
      else if i <= 3 && Contains(f, "INTEREST") then Category(CashInterest, Dividend, true)
      else if i <= 4 && (Contains(f, "FEE") || Contains(f, "COMMISSION")) then Category(TradingFee, TradeCost, true)
      else if i <= 5 && (Contains(f, "TAX") || Contains(f, "WITHHOLD")) then Category(WithholdingTax, ForeignTax, true)
      else if i <= 6 && Contains(f, "DEPOSIT") then Category(Deposit, Ignore, false)
      else if i <= 7 && Contains(f, "WITHDRAW") then Category(Withdrawal, Ignore, false)
      else if i <= 8 && (Contains(f, "CONVERSION") || Contains(f, "EXCHANGE")) then Category(CurrencyConversion, Ignore, false)
      else Category(RawLabel(f), Ignore, false)
    decreases |RuleTable| - i
  {
    if i < |RuleTable| {
      RuleTestAgrees(f, i);
      TableTailAgrees(f, i + 1);
    }
  }

  /** The source's chain and the ordered rule table agree on every label. */
  lemma CategorizeFollowsRuleTable(flowName: string)
    ensures Categorize(flowName) == FirstMatch(RuleTable, flowName, 0)
  {
    TableTailAgrees(flowName, 0);
  }

  /** A label holding both BUY and SELL is a trade cost: BUY comes first in the chain. */
  lemma BuyBeatsSell(flowName: string)
    requires Contains(flowName, "BUY") && Contains(flowName, "SELL")
    ensures Categorize(flowName).taxCategory == TradeCost
    ensures Categorize(flowName).display == Buy
  {
  }

  /** Classifies one normalised record. */
  function Classify(n: NormalizedRecord): (r: ClassifiedRecord)
    ensures r.isPl <==> r.taxCategory != Ignore
    ensures Abs(r.amount) == Abs(n.balance)
    ensures r.typeRaw == n.flowName && r.time == n.time
    ensures r.display.RawLabel? ==> r.display.name == n.flowName
    // symbol, currency and description are copied; the market, the category
    // and the sign come from the market rule, the category chain and the
    // sign rule applied to this record
    ensures r.symbol == n.symbol && r.currency == n.currency && r.description == n.description
    ensures r.market == MarketOf(n.symbol, n.currency)
    ensures Category(r.display, r.taxCategory, r.isPl) == Categorize(n.flowName)
    ensures r.amount == SignedAmount(n.flowName, n.direction, n.balance)
  {
    var c := Categorize(n.flowName);
    ClassifiedRecord(
      time := n.time,
      symbol := n.symbol,
      market := MarketOf(n.symbol, n.currency),
      currency := n.currency,
      typeRaw := n.flowName,
      display := c.display,
      description := n.description,
      amount := SignedAmount(n.flowName, n.direction, n.balance),
      isPl := c.isPl,
      taxCategory := c.taxCategory)
  }
}

=== FILE: engine.dfy ===
/** The engine end to end: normalise and classify every raw cash flow, then
    aggregate the classified records into the five market summaries. */
module Engine {
  import opened Records
  import opened Normalizer
  import opened Classifier
  import opened Aggregator
  import opened Markets

  /** One classified record per raw record, in input order. */
  function ClassifyAll(raws: seq<RawTransaction>, fallbackDate: string): (rs: seq<ClassifiedRecord>)
    ensures |rs| == |raws|
    ensures FlagsConsistent(rs)
    ensures forall i :: 0 <= i < |raws| ==> Abs(rs[i].amount) == Abs(Normalize(raws[i], fallbackDate).balance)
    // record i comes from raw record i: its label, time, market and category
    ensures forall i :: 0 <= i < |raws| ==>
              var n := Normalize(raws[i], fallbackDate);
              && rs[i].typeRaw == n.flowName && rs[i].time == n.time
              && rs[i].symbol == n.symbol && rs[i].currency == n.currency
              && rs[i].description == n.description
              && rs[i].market == MarketOf(n.symbol, n.currency)
              && Category(rs[i].display, rs[i].taxCategory, rs[i].isPl) == Categorize(n.flowName)
              && rs[i].amount == SignedAmount(n.flowName, n.direction, n.balance)
  {
    seq(|raws|, i requires 0 <= i < |raws| => Classify(Normalize(raws[i], fallbackDate)))
  }

  /** The tax report for a batch of raw cash flows. */
  function ComputeTaxReport(raws: seq<RawTransaction>, fallbackDate: string): ResultByMarket {
    Aggregate(ClassifyAll(raws, fallbackDate))
  }

  /** Every raw record ends up in exactly one market's list: together the
      five lists hold exactly the classified input, and their lengths add up
      to the number of raw records. */
  lemma ReportPartitionsInput(raws: seq<RawTransaction>, fallbackDate: string)
    ensures var rs := ClassifyAll(raws, fallbackDate);
            var r := ComputeTaxReport(raws, fallbackDate);
            multiset(rs) == multiset(r.us.records) + multiset(r.hk.records) + multiset(r.cn.records)
                            + multiset(r.sg.records) + multiset(r.other.records)
    ensures var r := ComputeTaxReport(raws, fallbackDate);
            |raws| == |r.us.records| + |r.hk.records| + |r.cn.records| + |r.sg.records| + |r.other.records|
  {
    var rs := ClassifyAll(raws, fallbackDate);
    AggregateIsPerMarketSummary(rs, US);
    AggregateIsPerMarketSummary(rs, HK);
    AggregateIsPerMarketSummary(rs, CN);
    AggregateIsPerMarketSummary(rs, SG);
    AggregateIsPerMarketSummary(rs, OTHER);
    PartitionIsComplete(rs);
    PartitionLengths(rs);
  }

  /** Each market's list is the classified input restricted to that market,
      in input order. */
  lemma ReportKeepsInputOrder(raws: seq<RawTransaction>, fallbackDate: string, m: Market)
    ensures var rs := ClassifyAll(raws, fallbackDate);
            var recs := ComputeTaxReport(raws, fallbackDate).Get(m).records;
            var pos := Positions(rs, m);
            && |pos| == |recs|
            && (forall j :: 0 <= j < |pos| ==> pos[j] < |rs| && recs[j] == rs[pos[j]])
            && (forall j, k :: 0 <= j < k < |pos| ==> pos[j] < pos[k])
            && (forall i :: 0 <= i < |rs| ==> (i in pos <==> rs[i].market == m))
  {
    var rs := ClassifyAll(raws, fallbackDate);
    AggregateIsPerMarketSummary(rs, m);
    FilterKeepsOrder(rs, m);
  }

  /** For every market: the estimate is never negative, foreign tax is
      reported non-negative, a trading loss is not deductible, and the
      profit/loss total is trade gain plus dividend gain plus the signed
      foreign-tax flows. */
  lemma ReportInvariants(raws: seq<RawTransaction>, fallbackDate: string, m: Market)
    ensures var s := ComputeTaxReport(raws, fallbackDate).Get(m);
            && s.taxReport.estChinaTax >= 0.0
            && s.taxReport.foreignTax >= 0.0
            && (s.taxReport.tradeGain <= 0.0 ==> s.taxReport.taxableIncome == s.taxReport.dividendGain)
            && (s.taxReport.foreignTax >= ChinaTaxBase(s.taxReport.tradeGain, s.taxReport.dividendGain)
                <==> s.taxReport.estChinaTax == 0.0)
            && s.totalPl == s.taxReport.tradeGain + s.taxReport.dividendGain + SumCategory(s.records, ForeignTax)
  {
    var rs := ClassifyAll(raws, fallbackDate);
    var f := Filter(rs, m);
    AggregateIsPerMarketSummary(rs, m);
    TaxEstimateBounds(
      SumCategory(f, TradeIncome) + SumCategory(f, TradeCost),
      SumCategory(f, Dividend),
      SumCategory(f, ForeignTax));
    TotalPlDecomposes(rs, m);
  }
}

=== FILE: markets.dfy ===
/** Market inference: which of the five report buckets a cash flow belongs
    to, decided by the symbol's suffix first and the currency second. */
module Markets {
  import opened Text
  import opened Records

  /** Recognised symbol suffixes, compared after upper-casing the symbol. */
  const SuffixTable: seq<(string, Market)> :=
    [(".US", US), (".HK", HK), (".CN", CN), (".SH", CN), (".SZ", CN), (".SG", SG)]

  /** Recognised currency codes, compared exactly (no case folding). */
  const CurrencyTable: map<string, Market> :=
    map["USD" := US, "HKD" := HK, "CNH" := CN, "CNY" := CN, "SGD" := SG]

  /** A symbol is used only when it is Python-truthy: present and non-empty. */
  predicate HasSymbol(symbol: Option<string>) {
    symbol.Some? && |symbol.value| > 0
  }

  /** Some entry of the suffix table ends the upper-cased symbol and names `m`. */
  predicate SuffixNames(symbol: Option<string>, m: Market) {
    HasSymbol(symbol) &&
    exists i :: 0 <= i < |SuffixTable| && EndsWith(Upper(symbol.value), SuffixTable[i].0) && SuffixTable[i].1 == m
  }

  predicate HasKnownSuffix(symbol: Option<string>) {
    exists m :: SuffixNames(symbol, m)
  }

  /** The bucket the currency alone would give. */
  function CurrencyBucket(currency: Option<string>): Market {
    if currency.Some? && currency.value in CurrencyTable then CurrencyTable[currency.value] else OTHER
  }

  /** The market of a record, as the source's chain of tests computes it. */
  function MarketOf(symbol: Option<string>, currency: Option<string>): Market {
    var suffixMarket :=
      if !HasSymbol(symbol) then None
      else
        var s := Upper(symbol.value);
        if EndsWith(s, ".US") then Some(US)
        else if EndsWith(s, ".HK") then Some(HK)
        else if EndsWith(s, ".CN") || EndsWith(s, ".SH") || EndsWith(s, ".SZ") then Some(CN)
        else if EndsWith(s, ".SG") then Some(SG)
        else None;
    if suffixMarket.Some? then suffixMarket.value
    else if currency == Some("USD") then US
    else if currency == Some("HKD") then HK
    else if currency == Some("CNH") || currency == Some("CNY") then CN
    else if currency == Some("SGD") then SG
    else OTHER
  }

  /** A recognised suffix decides the market whatever the currency says. */
  lemma SuffixTakesPrecedence(symbol: Option<string>, currency: Option<string>, m: Market)
    requires SuffixNames(symbol, m)
    ensures MarketOf(symbol, currency) == m
  {
    var s := Upper(symbol.value);
    var i :| 0 <= i < |SuffixTable| && EndsWith(s, SuffixTable[i].0) && SuffixTable[i].1 == m;
    if i != 0 {
      if EndsWith(s, ".US") { EndsWithSameLength(s, ".US", SuffixTable[i].0); }
    }
    if i != 1 {
      if EndsWith(s, ".HK") { EndsWithSameLength(s, ".HK", SuffixTable[i].0); }
    }
    if i != 2 && i != 3 && i != 4 {
      if EndsWith(s, ".CN") { EndsWithSameLength(s, ".CN", SuffixTable[i].0); }
      if EndsWith(s, ".SH") { EndsWithSameLength(s, ".SH", SuffixTable[i].0); }
      if EndsWith(s, ".SZ") { EndsWithSameLength(s, ".SZ", SuffixTable[i].0); }
    }
  }

  /** With no symbol or an unrecognised suffix, the currency decides by exact
      match, and anything else is OTHER. */
  lemma CurrencyFallback(symbol: Option<string>, currency: Option<string>)
    requires !HasKnownSuffix(symbol)
    ensures MarketOf(symbol, currency) == CurrencyBucket(currency)
  {
    if HasSymbol(symbol) {
      var s := Upper(symbol.value);
      forall i | 0 <= i < |SuffixTable|
        ensures !EndsWith(s, SuffixTable[i].0)
      {
        if EndsWith(s, SuffixTable[i].0) {
          assert SuffixNames(symbol, SuffixTable[i].1);
        }
      }
      assert !EndsWith(s, SuffixTable[0].0);
      assert !EndsWith(s, SuffixTable[1].0);
      assert !EndsWith(s, SuffixTable[2].0);
      assert !EndsWith(s, SuffixTable[3].0);
      assert !EndsWith(s, SuffixTable[4].0);
      assert !EndsWith(s, SuffixTable[5].0);
    }
  }

  /** A record lands in OTHER exactly when neither its suffix nor its
      currency is recognised. */
  lemma OtherIffUnrecognised(symbol: Option<string>, currency: Option<string>)
    ensures MarketOf(symbol, currency) == OTHER <==>
            !HasKnownSuffix(symbol) && !(currency.Some? && currency.value in CurrencyTable)
  {
    if m :| SuffixNames(symbol, m) {
      SuffixTakesPrecedence(symbol, currency, m);
    } else {
      CurrencyFallback(symbol, currency);
    }
  }

  /** Suffixes are matched whatever the symbol's letter case. */
  lemma SuffixCaseInsensitive(symbol: string, variant: string, currency: Option<string>)
    requires SameUpToCase(symbol, variant)
    ensures MarketOf(Some(symbol), currency) == MarketOf(Some(variant), currency)
  {
    SameUpToCaseUpper(symbol, variant);
  }

  /** Currency codes are not case-folded: "usd" with no symbol is OTHER,
      and so is an unknown code such as "XYZ". */
  lemma CurrencyIsCaseSensitive()
    ensures MarketOf(None, Some("usd")) == OTHER
    ensures MarketOf(Some(""), Some("XYZ")) == OTHER
    ensures MarketOf(Some("aapl.us"), Some("HKD")) == US
  {
    var s := Upper("aapl.us");
    assert s == "AAPL.US";
    assert s[|s| - 3..] == ".US";
  }
}

=== FILE: normalizer.dfy ===
/** The transaction normaliser: defaults and coercions applied to one raw
    cash-flow record before any rule looks at it. */
module Normalizer {
  import opened Text
  import opened Records

  /** The timestamp attribute `getattr` picks: `business_time` when the
      attribute exists at all (even when it is `None`), else
      `transaction_time`, else `None`. */
  function PickTime(raw: RawTransaction): Attr<string> {
    if raw.businessTime != Absent then raw.businessTime
    else if raw.transactionTime != Absent then raw.transactionTime
    else Null
  }

  /** A Python `str`-valued attribute with a default, `None` carried through. */
  function OrDefault(a: Attr<string>, default: string): Option<string> {
    match a
    case Absent => Some(default)
    case Null => None
    case Has(v) => Some(v)
  }

  /** `str(value)` of an attribute with a default. */
  function StrOf(a: Attr<string>, default: string): string {
    match a
    case Absent => default
    case Null => "None"
    case Has(v) => v
  }

  /** `float(getattr(cf, 'balance', 0))`, with every failure read as 0. */
  function ParseBalance(a: Attr<BalanceValue>): (x: real)
    ensures a.Has? && a.value.Numeric? ==> x == a.value.x
    ensures !(a.Has? && a.value.Numeric?) ==> x == 0.0
  {
    match a
    case Has(Numeric(v)) => v
    case _ => 0.0
  }

  /** Normalises one raw record; `fallbackDate` is the query's start date. */
  function Normalize(raw: RawTransaction, fallbackDate: string): (n: NormalizedRecord)
    // the label every keyword test sees has no lower-case letter left
    ensures NoLowercase(n.flowName)
    ensures raw.flowName.Has? ==> SameUpToCase(n.flowName, raw.flowName.value)
    // an unparseable, missing or None balance becomes 0
    ensures !(raw.balance.Has? && raw.balance.value.Numeric?) ==> n.balance == 0.0
    ensures raw.balance.Has? && raw.balance.value.Numeric? ==> n.balance == raw.balance.value.x
    // the time is the record's own timestamp when it has a non-empty one,
    // and the query's start date otherwise
    ensures PickTime(raw).Has? && |PickTime(raw).value| > 0 ==> n.time == PickTime(raw).value
    ensures !(PickTime(raw).Has? && |PickTime(raw).value| > 0) ==> n.time == fallbackDate
    ensures raw.businessTime.Absent? && raw.transactionTime.Absent? ==> n.time == fallbackDate
    // symbol, currency and direction pass through, with their defaults when absent
    ensures raw.symbol.Has? ==> n.symbol == Some(raw.symbol.value)
    ensures raw.symbol.Absent? ==> n.symbol == Some("")
    ensures raw.symbol.Null? ==> n.symbol == None
    ensures raw.currency.Has? ==> n.currency == Some(raw.currency.value)
    ensures raw.currency.Absent? ==> n.currency == Some("USD")
    ensures raw.currency.Null? ==> n.currency == None
    ensures raw.direction.Has? ==> n.direction == raw.direction.value
    ensures raw.direction.Absent? ==> n.direction == "0"
    ensures raw.direction.Null? ==> n.direction == "None"
    // the description falls back to the remark only when it is missing
    ensures raw.description.Has? ==> n.description == Some(raw.description.value)
    ensures raw.description.Null? ==> n.description == None
    ensures raw.description.Absent? && raw.remark.Has? ==> n.description == Some(raw.remark.value)
    ensures raw.description.Absent? && raw.remark.Absent? ==> n.description == Some("")
    ensures raw.description.Absent? && raw.remark.Null? ==> n.description == None
    // a missing label reads "UNKNOWN", a None label "NONE"
    ensures raw.flowName.Absent? ==> n.flowName == "UNKNOWN"
    ensures raw.flowName.Null? ==> n.flowName == "NONE"
  {
    var t := PickTime(raw);
    var flow := Upper(StrOf(raw.flowName, "Unknown"));
    UpperHasNoLowercase(StrOf(raw.flowName, "Unknown"));
    NormalizedRecord(
      time := if t.Has? && |t.value| > 0 then t.value else fallbackDate,
      symbol := OrDefault(raw.symbol, ""),
      currency := OrDefault(raw.currency, "USD"),
      description :=
        if raw.description.Absent? then OrDefault(raw.remark, "")
        else OrDefault(raw.description, ""),
      flowName := flow,
      balance := ParseBalance(raw.balance),
      direction := StrOf(raw.direction, "0"))
  }

  /** Labels that differ only in letter case normalise to the same record. */
  lemma NormalizeIgnoresLabelCase(raw: RawTransaction, newName: string, fallbackDate: string)
    requires raw.flowName.Has? && SameUpToCase(raw.flowName.value, newName)
    ensures Normalize(raw, fallbackDate) == Normalize(raw.(flowName := Has(newName)), fallbackDate)
  {
    SameUpToCaseUpper(raw.flowName.value, newName);
  }

  /** Feeding a normalised label back in changes nothing: normalisation of
      the label is idempotent. */
  lemma NormalizeLabelIdempotent(raw: RawTransaction, fallbackDate: string)
    ensures var n := Normalize(raw, fallbackDate);
            Normalize(raw.(flowName := Has(n.flowName)), fallbackDate) == n
  {
    UpperIdempotent(StrOf(raw.flowName, "Unknown"));
  }
}

=== FILE: records.dfy ===
/** The entities of the tax engine: the raw cash-flow record as the
    brokerage hands it over, the normalised record, the classified record,
    and the per-market summary with its tax report. */
module Records {

  datatype Option<T> = None | Some(value: T)

  /** What Python's `getattr(record, name, default)` can observe: the
      attribute is missing (the default is used), present but `None`, or
      present with a value. */
  datatype Attr<T> = Absent | Null | Has(value: T)

  /** The `balance` attribute: a value `float()` accepts, or one it rejects. */
  datatype BalanceValue = Numeric(x: real) | Unparseable

  /** One cash flow as fetched from the brokerage; timestamps are given in
      their string form. */
  datatype RawTransaction = RawTransaction(
    businessTime: Attr<string>,
    transactionTime: Attr<string>,
    symbol: Attr<string>,
    currency: Attr<string>,
    description: Attr<string>,
    remark: Attr<string>,
    flowName: Attr<string>,
    balance: Attr<BalanceValue>,
    direction: Attr<string>)

  /** A raw record after defaults and coercions; `None` stands for a Python
      `None` carried through. `balance` is the parsed number, whose sign is
      not trusted. */
  datatype NormalizedRecord = NormalizedRecord(
    time: string,
    symbol: Option<string>,
    currency: Option<string>,
    description: Option<string>,
    flowName: string,
    balance: real,
    direction: string)

  datatype Market = US | HK | CN | SG | OTHER


  /** The human-readable kind of a flow; `RawLabel` shows the upper-cased
      label itself when no rule recognises it. */
  datatype Display =
    | Buy
    | Sell
    | CashDividend
    | CashInterest
    | TradingFee
    | WithholdingTax
    | Deposit
    | Withdrawal
    | CurrencyConversion
    | RawLabel(name: string)

  datatype TaxCategory = Ignore | TradeCost | TradeIncome | Dividend | ForeignTax

  /** The outcome of the category chain for one label. */
  datatype Category = Category(display: Display, taxCategory: TaxCategory, isPl: bool)

  datatype ClassifiedRecord = ClassifiedRecord(
    time: string,
    symbol: Option<string>,
    market: Market,
    currency: Option<string>,
    typeRaw: string,
    display: Display,
    description: Option<string>,
    amount: real,
    isPl: bool,
    taxCategory: TaxCategory)

  datatype TaxReport = TaxReport(
    tradeGain: real,
    dividendGain: real,
    foreignTax: real,
    estChinaTax: real,
    taxableIncome: real)

  datatype MarketSummary = MarketSummary(
    records: seq<ClassifiedRecord>,
    totalPl: real,
    taxReport: TaxReport)

  /** The result keyed by the five fixed markets; every market is always
      present, records or not. */
  datatype ResultByMarket = ResultByMarket(
    us: MarketSummary,
    hk: MarketSummary,
    cn: MarketSummary,
    sg: MarketSummary,
    other: MarketSummary)
  {
    function Get(m: Market): MarketSummary {
      match m
      case US => us
      case HK => hk
      case CN => cn
      case SG => sg
      case OTHER => other
    }
  }

  const ZeroReport: TaxReport := TaxReport(0.0, 0.0, 0.0, 0.0, 0.0)
  const EmptySummary: MarketSummary := MarketSummary([], 0.0, ZeroReport)

  function Abs(x: real): real {
    if x < 0.0 then -x else x
  }

  function Max(a: real, b: real): real {
    if a < b then b else a
  }
}

=== FILE: scenarios.dfy ===
/** Worked examples: the keyword quirks the ordered substring rules
    produce and end-to-end tax reports, each proved on concrete labels. */
module Scenarios {
  import opened Text
  import opened Records
  import opened Normalizer
  import opened Markets
  import opened Classifier
  import opened Aggregator
  import opened Engine

  /** A raw record carrying only a label, a balance and a symbol. */
  function Flow(name: string, balance: real, symbol: string): RawTransaction {
    RawTransaction(
      businessTime := Absent,
      transactionTime := Absent,
      symbol := Has(symbol),
      currency := Absent,
      description := Absent,
      remark := Absent,
      flowName := Has(name),
      balance := Has(Numeric(balance)),
      direction := Absent)
  }

  /** No outflow keyword, stated one keyword at a time. */
  lemma NoOutflowKeyword(s: string)
    requires !Contains(s, "BUY") && !Contains(s, "WITHDRAW") && !Contains(s, "OUT") && !Contains(s, "FEE")
    requires !Contains(s, "TAX") && !Contains(s, "COMMISSION") && !Contains(s, "DEBIT")
    ensures !ContainsAny(s, OutflowKeywords)
  {
  }

  /** "BUY": an outflow and a trade cost. */
  lemma BuyLabel(direction: string, balance: real)
    ensures SignedAmount("BUY", direction, balance) == -Abs(balance)
    ensures Categorize("BUY") == Category(Buy, TradeCost, true)
  {
    ContainsPrefix("BUY", "BUY");
    assert "BUY" in OutflowKeywords;
  }

  /** "SELL": no outflow keyword, so an inflow; categorised as a sale. */
  lemma SellLabel(direction: string, balance: real)
    ensures !ContainsAny("SELL", OutflowKeywords) && ContainsAny("SELL", InflowKeywords)
    ensures SignedAmount("SELL", direction, balance) == Abs(balance)
    ensures Categorize("SELL") == Category(Sell, TradeIncome, true)
  {
    var s := "SELL";
    var ks := ["BUY", "WITHDRAW", "OUT", "FEE", "TAX", "COMMISSION", "DEBIT"];
    NoneOccur(s, ks, ['B', 'W', 'O', 'F', 'T', 'C', 'D']);
    assert !Contains(s, ks[0]) && !Contains(s, ks[1]) && !Contains(s, ks[2]) && !Contains(s, ks[3]);
    assert !Contains(s, ks[4]) && !Contains(s, ks[5]) && !Contains(s, ks[6]);
    NoOutflowKeyword(s);
    ContainsPrefix(s, "SELL");
    assert "SELL" in InflowKeywords;
  }

  /** "WITHHOLDING" without TAX holds the inflow keyword IN, so it gets a
      non-negative amount whatever `direction` says (even "1", outflow), yet
      it is still categorised as foreign tax. */
  lemma WithholdingWithoutTaxIsPositive(direction: string, balance: real)
    ensures SignedAmount("WITHHOLDING", direction, balance) == Abs(balance)
    ensures Categorize("WITHHOLDING") == Category(WithholdingTax, ForeignTax, true)
  {
    var s := "WITHHOLDING";
    var ks := ["BUY", "WITHDRAW", "OUT", "FEE", "TAX", "COMMISSION", "DEBIT", "SELL", "DIVIDEND", "INTEREST"];
    NoneOccur(s, ks, ['B', 'R', 'U', 'F', 'A', 'C', 'E', 'S', 'V', 'E']);
    assert !Contains(s, ks[0]) && !Contains(s, ks[1]) && !Contains(s, ks[2]) && !Contains(s, ks[3]);
    assert !Contains(s, ks[4]) && !Contains(s, ks[5]) && !Contains(s, ks[6]);
    assert !Contains(s, ks[7]) && !Contains(s, ks[8]) && !Contains(s, ks[9]);
    NoOutflowKeyword(s);
    assert s[8..10] == "IN";
    ContainsAt(s, "IN", 8);
    assert "IN" in InflowKeywords;
    ContainsPrefix(s, "WITHHOLD");
  }

  /** "DIVIDEND TAX" is negative because of TAX, yet categorised as a
      dividend because DIVIDEND comes earlier in the chain. */
  lemma DividendTaxIsNegativeDividend(direction: string, balance: real)
    ensures SignedAmount("DIVIDEND TAX", direction, balance) == -Abs(balance)
    ensures Categorize("DIVIDEND TAX") == Category(CashDividend, Dividend, true)
  {
    var s := "DIVIDEND TAX";
    var ks := ["BUY", "SELL"];
    NoneOccur(s, ks, ['B', 'S']);
    assert !Contains(s, ks[0]) && !Contains(s, ks[1]);
    assert s[9..12] == "TAX";
    ContainsAt(s, "TAX", 9);
    assert "TAX" in OutflowKeywords;
    ContainsPrefix(s, "DIVIDEND");
  }

  /** "WITHHOLDING TAX": an outflow, categorised as foreign tax. */
  lemma WithholdingTaxLabel(direction: string, balance: real)
    ensures SignedAmount("WITHHOLDING TAX", direction, balance) == -Abs(balance)
    ensures Categorize("WITHHOLDING TAX") == Category(WithholdingTax, ForeignTax, true)
  {
    var s := "WITHHOLDING TAX";
    var ks := ["BUY", "SELL", "DIVIDEND", "INTEREST", "FEE", "COMMISSION"];
    NoneOccur(s, ks, ['B', 'S', 'V', 'E', 'F', 'C']);
    assert !Contains(s, ks[0]) && !Contains(s, ks[1]) && !Contains(s, ks[2]);
    assert !Contains(s, ks[3]) && !Contains(s, ks[4]) && !Contains(s, ks[5]);
    assert s[12..15] == "TAX";
    ContainsAt(s, "TAX", 12);
    assert "TAX" in OutflowKeywords;
  }

  /** "DEPOSIT": an inflow, not taxed and not profit/loss. */
  lemma DepositLabel(direction: string, balance: real)
    ensures SignedAmount("DEPOSIT", direction, balance) == Abs(balance)
    ensures Categorize("DEPOSIT") == Category(Deposit, Ignore, false)
  {
    var s := "DEPOSIT";
    var ks := ["BUY", "WITHDRAW", "OUT", "FEE", "TAX", "COMMISSION", "DEBIT", "SELL", "DIVIDEND", "INTEREST", "WITHHOLD"];
    NoneOccur(s, ks, ['B', 'W', 'U', 'F', 'A', 'C', 'B', 'L', 'V', 'R', 'W']);
    assert !Contains(s, ks[0]) && !Contains(s, ks[1]) && !Contains(s, ks[2]) && !Contains(s, ks[3]);
    assert !Contains(s, ks[4]) && !Contains(s, ks[5]) && !Contains(s, ks[6]);
    assert !Contains(s, ks[7]) && !Contains(s, ks[8]) && !Contains(s, ks[9]) && !Contains(s, ks[10]);
    NoOutflowKeyword(s);
    ContainsPrefix(s, "DEPOSIT");
    assert "DEPOSIT" in InflowKeywords;
  }

  /** Case variants of a label classify identically. */
  lemma LabelCaseVariants()
    ensures Normalize(Flow("buy", 1.0, ""), "d").flowName == "BUY"
    ensures Normalize(Flow("Buy", 1.0, ""), "d") == Normalize(Flow("BUY", 1.0, ""), "d")
  {
    assert Upper("buy") == "BUY";
    assert Upper("Buy") == "BUY";
    UpperKeepsUppercase("BUY");
  }

  /** A symbol ending in ".US" puts the record in the US market. */
  lemma AaplIsUs(currency: Option<string>)
    ensures MarketOf(Some("AAPL.US"), currency) == US
  {
    var s := Upper("AAPL.US");
    assert s == "AAPL.US";
    assert s[|s| - 3..] == ".US";
  }

  /** A raw flow on AAPL.US whose label is already upper case: normalised
      and classified, it keeps its label and balance and lands in US. */
  lemma ClassifyAaplFlow(name: string, balance: real, fallbackDate: string)
    requires NoLowercase(name)
    ensures var r := Classify(Normalize(Flow(name, balance, "AAPL.US"), fallbackDate));
            && r.market == US && r.typeRaw == name
            && r.amount == SignedAmount(name, "0", balance)
            && Categorize(name) == Category(r.display, r.taxCategory, r.isPl)
  {
    UpperKeepsUppercase(name);
    AaplIsUs(Some("USD"));
  }

  lemma SumCategoryOfThree(a: ClassifiedRecord, b: ClassifiedRecord, d: ClassifiedRecord, c: TaxCategory)
    ensures SumCategory([a, b, d], c) ==
            (if a.taxCategory == c then a.amount else 0.0)
            + (if b.taxCategory == c then b.amount else 0.0)
            + (if d.taxCategory == c then d.amount else 0.0)
  {
    SumCategoryPush([], a, c);
    assert [] + [a] == [a];
    SumCategoryPush([a], b, c);
    assert [a] + [b] == [a, b];
    SumCategoryPush([a, b], d, c);
    assert [a, b] + [d] == [a, b, d];
  }

  lemma SumCategoryOfTwo(a: ClassifiedRecord, b: ClassifiedRecord, c: TaxCategory)
    ensures SumCategory([a, b], c) ==
            (if a.taxCategory == c then a.amount else 0.0) + (if b.taxCategory == c then b.amount else 0.0)
  {
    SumCategoryPush([], a, c);
    assert [] + [a] == [a];
    SumCategoryPush([a], b, c);
    assert [a] + [b] == [a, b];
  }

  /** A summary's report from its three category sums. */
  lemma ReportFromSums(rs: seq<ClassifiedRecord>, gain: real, dividend: real, foreign: real)
    requires SumCategory(rs, TradeIncome) + SumCategory(rs, TradeCost) == gain
    requires SumCategory(rs, Dividend) == dividend
    requires SumCategory(rs, ForeignTax) == foreign
    ensures Summarize(rs).taxReport == EstimateTax(gain, dividend, foreign)
  {
  }

  /** 20% of a 500 gain is 100. */
  lemma EstimateOneTrade()
    ensures EstimateTax(500.0, 0.0, 0.0) == TaxReport(500.0, 0.0, 0.0, 100.0, 500.0)
  {
  }

  lemma TwoTradesSummary(b: ClassifiedRecord, s: ClassifiedRecord)
    requires b.taxCategory == TradeCost && b.amount == -1000.0
    requires s.taxCategory == TradeIncome && s.amount == 1500.0
    ensures Summarize([b, s]).taxReport == TaxReport(500.0, 0.0, 0.0, 100.0, 500.0)
  {
    SumCategoryOfTwo(b, s, TradeIncome);
    SumCategoryOfTwo(b, s, TradeCost);
    SumCategoryOfTwo(b, s, Dividend);
    SumCategoryOfTwo(b, s, ForeignTax);
    ReportFromSums([b, s], 500.0, 0.0, 0.0);
    EstimateOneTrade();
  }

  /** A buy of 1000 and a sale of 1500 in one market: a trade gain of 500
      and a domestic estimate of 100. */
  lemma TwoTrades(b: ClassifiedRecord, s: ClassifiedRecord)
    requires b.market == US && b.taxCategory == TradeCost && b.amount == -1000.0
    requires s.market == US && s.taxCategory == TradeIncome && s.amount == 1500.0
    ensures Aggregate([b, s]).us.taxReport == TaxReport(500.0, 0.0, 0.0, 100.0, 500.0)
  {
    AggregateSingleMarket([b, s], US);
    TwoTradesSummary(b, s);
  }

  /** With 30 withheld abroad, the 30 is credited. */
  lemma EstimateOneTradeAndCredit()
    ensures EstimateTax(500.0, 0.0, -30.0) == TaxReport(500.0, 0.0, 30.0, 70.0, 500.0)
  {
  }

  /** A foreign-tax flow signed positive (a lone "WITHHOLDING" label) is
      still credited: the report takes the absolute value of the sum. */
  lemma EstimateOneTradeAndPositiveCredit()
    ensures EstimateTax(500.0, 0.0, 30.0) == TaxReport(500.0, 0.0, 30.0, 70.0, 500.0)
  {
  }

  lemma ThreeTradesSummary(b: ClassifiedRecord, s: ClassifiedRecord, w: ClassifiedRecord)
    requires b.taxCategory == TradeCost && b.amount == -1000.0
    requires s.taxCategory == TradeIncome && s.amount == 1500.0
    requires w.taxCategory == ForeignTax && (w.amount == -30.0 || w.amount == 30.0)
    ensures Summarize([b, s, w]).taxReport == TaxReport(500.0, 0.0, 30.0, 70.0, 500.0)
  {
    SumCategoryOfThree(b, s, w, TradeIncome);
    SumCategoryOfThree(b, s, w, TradeCost);
    SumCategoryOfThree(b, s, w, Dividend);
    SumCategoryOfThree(b, s, w, ForeignTax);
    ReportFromSums([b, s, w], 500.0, 0.0, w.amount);
    if w.amount == -30.0 {
      EstimateOneTradeAndCredit();
    } else {
      EstimateOneTradeAndPositiveCredit();
    }
  }

  /** A buy of 1000, a sale of 1500 and 30 withheld, all in one market: a
      trade gain of 500, a domestic estimate of 100 less the 30 credit,
      whichever sign the withheld amount was given. */
  lemma ThreeTrades(b: ClassifiedRecord, s: ClassifiedRecord, w: ClassifiedRecord)
    requires b.market == US && b.taxCategory == TradeCost && b.amount == -1000.0
    requires s.market == US && s.taxCategory == TradeIncome && s.amount == 1500.0
    requires w.market == US && w.taxCategory == ForeignTax && (w.amount == -30.0 || w.amount == 30.0)
    ensures Aggregate([b, s, w]).us.taxReport == TaxReport(500.0, 0.0, 30.0, 70.0, 500.0)
  {
    AggregateSingleMarket([b, s, w], US);
    ThreeTradesSummary(b, s, w);
  }

  /** An upper-case flow on AAPL.US whose label's category and signed
      amount are known classifies to a US record with exactly those. */
  lemma ClassifiedAapl(name: string, balance: real, fallbackDate: string, c: TaxCategory, amount: real)
    requires NoLowercase(name)
    requires Categorize(name).taxCategory == c && SignedAmount(name, "0", balance) == amount
    ensures var r := Classify(Normalize(Flow(name, balance, "AAPL.US"), fallbackDate));
            r.market == US && r.taxCategory == c && r.amount == amount
  {
    ClassifyAaplFlow(name, balance, fallbackDate);
  }

  lemma ClassifiedBuy(fallbackDate: string)
    ensures var r := Classify(Normalize(Flow("BUY", 1000.0, "AAPL.US"), fallbackDate));
            r.market == US && r.taxCategory == TradeCost && r.amount == -1000.0
  {
    BuyLabel("0", 1000.0);
    ClassifiedAapl("BUY", 1000.0, fallbackDate, TradeCost, -1000.0);
  }

  lemma ClassifiedSell(fallbackDate: string)
    ensures var r := Classify(Normalize(Flow("SELL", 1500.0, "AAPL.US"), fallbackDate));
            r.market == US && r.taxCategory == TradeIncome && r.amount == 1500.0
  {
    SellLabel("0", 1500.0);
    ClassifiedAapl("SELL", 1500.0, fallbackDate, TradeIncome, 1500.0);
  }

  lemma ClassifiedWithholdingTax(fallbackDate: string)
    ensures var r := Classify(Normalize(Flow("WITHHOLDING TAX", 30.0, "AAPL.US"), fallbackDate));
            r.market == US && r.taxCategory == ForeignTax && r.amount == -30.0
  {
    WithholdingTaxLabel("0", 30.0);
    ClassifiedAapl("WITHHOLDING TAX", 30.0, fallbackDate, ForeignTax, -30.0);
  }

  lemma ClassifiedWithholding(fallbackDate: string)
    ensures var r := Classify(Normalize(Flow("WITHHOLDING", 30.0, "AAPL.US"), fallbackDate));
            r.market == US && r.taxCategory == ForeignTax && r.amount == 30.0
  {
    WithholdingWithoutTaxIsPositive("0", 30.0);
    ClassifiedAapl("WITHHOLDING", 30.0, fallbackDate, ForeignTax, 30.0);
  }

  /** Three raw records classify to the three classified records, in order. */
  lemma ClassifyAllOfThree(x: RawTransaction, y: RawTransaction, z: RawTransaction, fallbackDate: string)
    ensures ClassifyAll([x, y, z], fallbackDate)
            == [Classify(Normalize(x, fallbackDate)), Classify(Normalize(y, fallbackDate)),
                Classify(Normalize(z, fallbackDate))]
  {
  }

  /** The same three flows as raw records, end to end. */
  lemma AaplRoundTrip(fallbackDate: string)
    ensures ComputeTaxReport([Flow("BUY", 1000.0, "AAPL.US"), Flow("SELL", 1500.0, "AAPL.US"),
                              Flow("WITHHOLDING TAX", 30.0, "AAPL.US")], fallbackDate).us.taxReport
            == TaxReport(500.0, 0.0, 30.0, 70.0, 500.0)
  {
    var x, y, z := Flow("BUY", 1000.0, "AAPL.US"), Flow("SELL", 1500.0, "AAPL.US"),
                   Flow("WITHHOLDING TAX", 30.0, "AAPL.US");
    ClassifiedBuy(fallbackDate);
    ClassifiedSell(fallbackDate);
    ClassifiedWithholdingTax(fallbackDate);
    ClassifyAllOfThree(x, y, z, fallbackDate);
    ThreeTrades(Classify(Normalize(x, fallbackDate)), Classify(Normalize(y, fallbackDate)),
                Classify(Normalize(z, fallbackDate)));
  }

  /** A lone "WITHHOLDING" flow is signed positive, yet the report still
      credits it as 30 of foreign tax paid: the estimate drops from 100 to 70. */
  lemma PositiveWithholdingIsCredited(fallbackDate: string)
    ensures ComputeTaxReport([Flow("BUY", 1000.0, "AAPL.US"), Flow("SELL", 1500.0, "AAPL.US"),
                              Flow("WITHHOLDING", 30.0, "AAPL.US")], fallbackDate).us.taxReport
            == TaxReport(500.0, 0.0, 30.0, 70.0, 500.0)
  {
    var x, y, z := Flow("BUY", 1000.0, "AAPL.US"), Flow("SELL", 1500.0, "AAPL.US"),
                   Flow("WITHHOLDING", 30.0, "AAPL.US");
    ClassifiedBuy(fallbackDate);
    ClassifiedSell(fallbackDate);
    ClassifiedWithholding(fallbackDate);
    ClassifyAllOfThree(x, y, z, fallbackDate);
    ThreeTrades(Classify(Normalize(x, fallbackDate)), Classify(Normalize(y, fallbackDate)),
                Classify(Normalize(z, fallbackDate)));
  }

  /** A deposit in US dollars with no symbol lands in the US market. */
  lemma DepositWithoutSymbolIsUs(amount: real, fallbackDate: string)
    ensures Classify(Normalize(Flow("DEPOSIT", amount, ""), fallbackDate)).market == US
  {
  }

  /** A deposit, of any amount and in any market, leaves every market's tax
      report and profit/loss total as they were. */
  lemma DepositChangesNoFigure(rs: seq<ClassifiedRecord>, amount: real, symbol: string, fallbackDate: string, m: Market)
    ensures var d := Classify(Normalize(Flow("DEPOSIT", amount, symbol), fallbackDate));
            && Aggregate(rs + [d]).Get(m).taxReport == Aggregate(rs).Get(m).taxReport
            && Aggregate(rs + [d]).Get(m).totalPl == Aggregate(rs).Get(m).totalPl
  {
    var d := Classify(Normalize(Flow("DEPOSIT", amount, symbol), fallbackDate));
    UpperKeepsUppercase("DEPOSIT");
    DepositLabel("0", amount);
    IgnoredRecordChangesNoFigure(rs, d, m);
  }
}

=== FILE: text.dfy ===
/** String operations the cash-flow classifier relies on: upper-casing a
    label (Python's `str.upper` on the ASCII labels the brokerage emits),
    suffix tests (`str.endswith`) and substring search (`k in s`). */
module Text {

  predicate IsLower(c: char) {
    'a' <= c <= 'z'
  }

  /** Upper-cases one character; only the ASCII letters a-z change. */
  function UpperChar(c: char): char {
    if IsLower(c) then (c as int - 32) as char else c
  }

  function Upper(s: string): string {
    seq(|s|, i requires 0 <= i < |s| => UpperChar(s[i]))
  }

  /** No character of `s` is a lower-case ASCII letter. */
  predicate NoLowercase(s: string) {
    forall c :: c in s ==> !IsLower(c)
  }

  /** `a` and `b` spell the same word up to ASCII letter case. */
  predicate SameUpToCase(a: string, b: string) {
    |a| == |b| && forall i :: 0 <= i < |a| ==> UpperChar(a[i]) == UpperChar(b[i])
  }

  lemma UpperHasNoLowercase(s: string)
    ensures NoLowercase(Upper(s))
  {
    forall c | c in Upper(s)
      ensures !IsLower(c)
    {
      var i :| 0 <= i < |s| && Upper(s)[i] == c;
    }
  }

  lemma UpperKeepsUppercase(s: string)
    requires NoLowercase(s)
    ensures Upper(s) == s
  {
    forall i | 0 <= i < |s|
      ensures Upper(s)[i] == s[i]
    {
      assert s[i] in s;
    }
  }

  /** Upper-casing twice is the same as upper-casing once. */
  lemma UpperIdempotent(s: string)
    ensures Upper(Upper(s)) == Upper(s)
  {
    UpperHasNoLowercase(s);
    UpperKeepsUppercase(Upper(s));
  }

  /** Every case variant of a word upper-cases to the same string. */
  lemma SameUpToCaseUpper(a: string, b: string)
    ensures SameUpToCase(a, b) <==> Upper(a) == Upper(b)
  {
    if Upper(a) == Upper(b) {
      assert |a| == |Upper(a)|;
      forall i | 0 <= i < |a|
        ensures UpperChar(a[i]) == UpperChar(b[i])
      {
        assert Upper(a)[i] == Upper(b)[i];
      }
    }
  }

  /** Python's `s.endswith(suffix)`. */
  predicate EndsWith(s: string, suffix: string) {
    |suffix| <= |s| && s[|s| - |suffix|..] == suffix
  }

  /** Two suffixes of the same length can only both end `s` if they are equal. */
  lemma EndsWithSameLength(s: string, a: string, b: string)
    requires |a| == |b|
    requires EndsWith(s, a) && EndsWith(s, b)
    ensures a == b
  {
  }

  /** `k` occurs in `s` starting at position `i`. */
  predicate OccursAt(s: string, k: string, i: int) {
    0 <= i && i + |k| <= |s| && s[i..i + |k|] == k
  }

  /** Python's `k in s` for strings: `k` occurs at some position of `s`. */
  predicate Contains(s: string, k: string) {
    exists i :: 0 <= i <= |s| && OccursAt(s, k, i)
  }

  /** The same test as a left-to-right scan of the positions of `s`. */
  predicate Scan(s: string, k: string)
    decreases |s|
  {
    if k <= s then true
    else if |s| == 0 then false
    else Scan(s[1..], k)
  }

  /** The scan finds `k` exactly when `k` occurs at some position of `s`. */
  lemma {:induction false} ScanIff(s: string, k: string)
    ensures Scan(s, k) <==> Contains(s, k)
    decreases |s|
  {
    if k <= s {
      assert OccursAt(s, k, 0);
    } else if |s| == 0 {
    } else {
      ScanIff(s[1..], k);
      forall i | OccursAt(s[1..], k, i)
        ensures OccursAt(s, k, i + 1)
      {
        assert s[1..][i..i + |k|] == s[i + 1..i + 1 + |k|];
      }
      forall i | OccursAt(s, k, i)
        ensures OccursAt(s[1..], k, i - 1)
      {
        assert i != 0;
        assert s[1..][i - 1..i - 1 + |k|] == s[i..i + |k|];
      }
    }
  }

  lemma ContainsAt(s: string, k: string, i: int)
    requires OccursAt(s, k, i)
    ensures Contains(s, k)
  {
  }

  /** A prefix of `s` occurs in `s`, at position 0. */
  lemma ContainsPrefix(s: string, k: string)
    requires k <= s
    ensures Contains(s, k)
  {
    assert s[0..|k|] == k;
    assert OccursAt(s, k, 0);
  }

  /** A word that uses a character `s` lacks does not occur in `s`. */
  lemma NotContainsMissingChar(s: string, k: string, c: char)
    requires c in k && c !in s
    ensures !Contains(s, k)
  {
    var j :| 0 <= j < |k| && k[j] == c;
    forall i | 0 <= i <= |s|
      ensures !OccursAt(s, k, i)
    {
      if i + |k| <= |s| {
        assert s[i..i + |k|][j] == s[i + j];
        assert s[i + j] in s;
      }
    }
  }

  /** None of `words` occurs in `s`, each because it uses a character
      (its witness) that `s` lacks. */
  lemma NoneOccur(s: string, words: seq<string>, witnesses: seq<char>)
    requires |words| == |witnesses|
    requires forall j :: 0 <= j < |witnesses| ==> witnesses[j] in words[j] && witnesses[j] !in s
    ensures forall j :: 0 <= j < |words| ==> !Contains(s, words[j])
  {
    forall j | 0 <= j < |words|
      ensures !Contains(s, words[j])
    {
      NotContainsMissingChar(s, words[j], witnesses[j]);
    }
  }

  /** Python's `any(k in s for k in keys)`. */
  predicate ContainsAny(s: string, keys: seq<string>) {
    exists k :: k in keys && Contains(s, k)
  }
}
